=== FILE: README.md ===
# World clock slider — a Dafny model of its core

The world clock slider is a single-page Preact widget. It shows the current
time in six cities and has a horizontal slider that "peeks" up to a full day
(1440 minutes) ahead or behind. This project models the logic in
`src/index.tsx` that decides what the widget shows and where the slider
thumb goes. It proves properties of that model with Dafny.

- **Value text** (`Utils.formatOffset`). The label is `Now` at offset zero.
  Otherwise it is a sign, whole hours, a colon and two-digit minutes, as in
  `+1:30` or `-0:45`. Module `OffsetLabel`.
- **Time-of-day icon** (`Utils.getTimeOfDay`): sunrise, day, sunset or night
  for a city's local hour. Module `DayPhase`.
- **Offset descriptions of a city row** (the arithmetic and string part of
  `Utils.getRelativeTimestamp`). The millisecond difference is rounded to
  whole minutes. It is then written in full (`1 hour 30 minutes ahead`,
  `same time`) and in short (`+1:30`, `-1HR`, `±0HRS`). Module
  `RelativeOffset`, built on `Decimal`, `Minutes` and `Words`.
- **Slider geometry** (`Utils.getOffsetFromSliderX`,
  `Utils.getSliderXFromOffset`). It also covers the clamping that the drag
  and click handlers apply, and the sign flip they apply in right-to-left
  documents. Module `Geometry`.
- **Keyboard stepping** (`handleKeyDown`). Home and End jump to the bounds.
  The arrow keys move the offset 30 minutes, stopping at the bound. Module
  `Keyboard`.
- **Interaction state machine** (`WorldClockSlider`). The state holds the
  offset, the thumb position, and the dragging, tooltip and resetting flags.
  These events change it: a press on the thumb, pointer move and pointer up in
  the window, a press elsewhere in the clock area, a key, a reset request,
  reset completion, and container layout. A press on the thumb runs the
  thumb's own handler and then, because the press bubbles up, the clock
  area's handler. Module `Slider`.

Numbers are Dafny's unbounded integers and exact reals. `Math.round` is
`floor(x + 0.5)`. The width of a measured container is a positive real.

## Model

| member | source | states |
|---|---|---|
| OffsetLabel.FormatOffset | src/index.tsx:451-460 | The label is `Now` exactly at offset zero. Every other label is at least five characters long and starts with `+` for a later time and `-` for an earlier one. |
| OffsetLabel.FormatOffsetRoundTrip | src/index.tsx:451-460 | Every offset's label reads back as that offset under a strict label parser. |
| OffsetLabel.ParseOffsetLabelCanonical | src/index.tsx:451-460 | Every string the parser accepts is the label of the offset it reads as. Together with the round trip, labels and offsets are in one-to-one correspondence. |
| OffsetLabel.FormatOffsetInjective | src/index.tsx:451-460 | Two different offsets never share a label. |
| OffsetLabel.FormatOffsetNinety | src/index.tsx:454-459 | Ninety minutes ahead reads `+1:30`: whole hours, then minutes padded to two digits. |
| OffsetLabel.FormatOffsetMinusFortyFive | src/index.tsx:454-459 | Forty-five minutes behind reads `-0:45`: the hour is written even when it is zero. |
| Minutes.Decompose | src/index.tsx:455-457 | The hours and the minutes recombine to the magnitude, and the minutes are below sixty. |
| Minutes.DecomposeUnique | src/index.tsx:490-494 | That decomposition is the only one whose minutes are below sixty. |
| Decimal.NatToString | src/index.tsx:459 | Interpolating a non-negative integer gives a canonical decimal numeral that denotes the integer. |
| Decimal.NatToStringOfValue | src/index.tsx:459 | Every canonical numeral is the rendering of the number it denotes, so rendering is one-to-one. |
| Decimal.PadStart | src/index.tsx:459 | The padded string is the original, preceded by fill characters up to the requested width. |
| Decimal.TwoDigits | src/index.tsx:512-514 | Padding a number below one hundred to two digits gives two digits that denote that number. |
| Decimal.TwoDigitsOfValue | src/index.tsx:512-514 | Every two-digit string is the padded rendering of its own value. |
| DayPhase.GetTimeOfDay | src/index.tsx:531-536 | Each of the four icons is chosen exactly on its own hours: sunrise 6–9, day 9–18, sunset 18–20, night otherwise. Both directions are stated. |
| DayPhase.GetTimeOfDayMatchesBands | src/index.tsx:531-536 | The classifier agrees, for every hour, with a table of half-open daylight bands that is read in order with night as the default. |
| DayPhase.BandsDisjoint | src/index.tsx:532-534 | No hour lies in two daylight bands, so the order of the tests does not matter. |
| DayPhase.DaylightInOrder | src/index.tsx:532-534 | Between 6:00 and 20:00 the icons only move forward: sunrise, then day, then sunset. |
| DayPhase.GetTimeOfDayExamples | src/index.tsx:531-536 | The boundary hours 5, 6, 8, 9, 17, 18, 19 and 20 get the icons their half-open ranges assign. |
| RelativeOffset.RoundToMinutes | src/index.tsx:488-489 | The rounded minute count is within half a minute of the difference. Exactly half a minute rounds up. |
| RelativeOffset.RoundingAtHalfMinute | src/index.tsx:489 | +30 s rounds to 1 minute and -30 s rounds to 0. Just inside those points, the result rounds the other way. |
| RelativeOffset.Full | src/index.tsx:497-509 | A zero difference is described as `same time`. |
| RelativeOffset.FullDirection | src/index.tsx:497-509 | The full description ends in ` ahead` exactly for a later time, and in ` behind` exactly for an earlier one. |
| RelativeOffset.FullWords | src/index.tsx:500-509 | A non-zero description is its hour words, its minute words and the direction, joined with single spaces. |
| RelativeOffset.FullRoundTrip | src/index.tsx:490-509 | Every full description reads back as the signed minute count it was made from. It therefore keeps the omitted zero parts and the direction; the singular/plural rule is the `Unit` definition shared by the writer and the reader, pinned separately by `Unit` and `FullPlurals`. |
| RelativeOffset.Unit | src/index.tsx:492-496 | A unit is spelled singular exactly for a count of one, and otherwise extends the singular. |
| RelativeOffset.FullPlurals | src/index.tsx:492-509 | 121 minutes ahead is `2 hours 1 minute ahead` and 119 behind is `1 hour 59 minutes behind`: each unit is singular or plural by its own count. |
| RelativeOffset.SignChar | src/index.tsx:497-499 | The short sign is `+` exactly for a later time, `-` exactly for an earlier one, and `±` otherwise. |
| RelativeOffset.Short | src/index.tsx:511-516 | A zero difference reads `±0HRS`. Every short form is at least three characters and starts with its sign. |
| RelativeOffset.ShortBodyMagnitude | src/index.tsx:511-516 | What follows the sign spells the magnitude: `H:MM` with a minutes remainder, `1HR` for one whole hour, and `HHRS` for any other whole number of hours. |
| RelativeOffset.ShortRoundTrip | src/index.tsx:490-516 | Every short description reads back as the signed minute count it was made from. |
| RelativeOffset.Describe | src/index.tsx:488-516 | A difference that rounds to zero is `same time` / `±0HRS`. The full form says ahead exactly for a positive rounded difference and behind exactly for a negative one. |
| RelativeOffset.DescribeRoundTrip | src/index.tsx:488-516 | Both descriptions of a row read back as the rounded minute difference between the two instants. |
| RelativeOffset.DescribeNinetyMinutesAhead | src/index.tsx:502-516 | Ninety minutes ahead is `1 hour 30 minutes ahead` / `+1:30`. |
| RelativeOffset.DescribeOneHourBehind | src/index.tsx:492-516 | One hour behind is `1 hour behind` / `-1HR`: singular unit, no minutes part, `HR` without `S`. |
| Words.SplitJoin | src/index.tsx:506 | Joining space-free words with single spaces loses nothing: splitting at the spaces gives the words back. |
| Words.JoinAppend | src/index.tsx:506-509 | Joining two non-empty lists puts exactly one space between their joins. |
| Geometry.Round | src/index.tsx:478 | `Math.round` gives the nearest integer r: the value lies in [r − ½, r + ½), so a value exactly halfway rounds up. |
| Geometry.SliderXFromOffset | src/index.tsx:521-529 | An offset within the bounds is drawn inside the container. Zero is drawn at the centre, and the two bounds at the two edges. |
| Geometry.OffsetFromSliderX | src/index.tsx:469-479 | A position inside the container reads as an offset within the bounds, and the centre reads as zero. |
| Geometry.OffsetRoundTrip | src/index.tsx:469-479 | Reading the offset back at the position where an offset is drawn gives that offset. |
| Geometry.SliderXMonotonic | src/index.tsx:521-529 | Larger offsets are drawn further right. |
| Geometry.OffsetFromSliderXMonotonic | src/index.tsx:469-479 | A position further right never reads as a smaller offset. |
| Geometry.SnapDistance | src/index.tsx:469-479 | Snapping a position to the nearest whole minute moves it by at most half a minute's width. |
| Geometry.Clamp | src/index.tsx:77-83 | `Math.max(lo, Math.min(hi, v))` lies in [lo, hi]. It is v inside the range and the nearer bound outside it. |
| Geometry.ClampReal | src/index.tsx:76 | The same for the pointer's position in the container. |
| Geometry.PointerOffset | src/index.tsx:76-83 | The offset under the pointer is always within the bounds. At or past the right edge it is the upper bound; at or past the left edge it is the lower bound. |
| Geometry.EdgeOffsets | src/index.tsx:76-81 | The two edges of the container read as the two bounds. |
| Geometry.PointerOffsetMonotonic | src/index.tsx:138-140 | Moving the pointer right never decreases the offset under it. |
| Geometry.Directed | src/index.tsx:85 | In a right-to-left document the stored offset is the negation of the offset under the pointer. Otherwise it is that offset. |
| Geometry.DirectedInvolution | src/index.tsx:85 | Flipping twice restores the offset, so the stored and the drawn offsets determine each other. |
| Keyboard.KeyStep | src/index.tsx:94-111 | Exactly the six handled keys produce a new offset. Home gives the lower bound and End the upper bound. Up/Right moves 30 minutes later and Down/Left 30 minutes earlier, each stopping at the bound. In-range offsets stay in range. |
| Keyboard.StepBackUndoesStep | src/index.tsx:105-108 | One step back undoes a step forward that did not hit the upper bound. |
| Keyboard.PressTowardEnd | src/index.tsx:105-106 | n forward presses add 30·n minutes, capped at the upper bound. |
| Keyboard.CrossRange | src/index.tsx:101-106 | 96 arrow presses take the offset from one bound to the other. |
| Slider.Init | src/index.tsx:26-31 | The first render has offset zero, a cleared (centred) thumb, an unmeasured container, the given document direction, and no drag, tooltip or reset in progress. |
| Slider.MouseDown | src/index.tsx:56-67 | The thumb's own handler, `handleMouseDown`, starts a drag and shows the tooltip, unless a reset is running, in which case it changes nothing. It changes nothing else either way. |
| Slider.ThumbDown | src/index.tsx:56-146 | A press on the thumb runs `handleMouseDown` and then, because the thumb (lines 303-315) sits inside the clock area whose press handler is `handleContainerClick` (lines 231-232), that handler too. During a reset nothing changes. Otherwise a drag starts and the tooltip shows, and with a mounted container the result is exactly that of a press in the clock area at the same point. |
| Slider.ThumbLandsUnderPointer | src/index.tsx:125-146 | After a press on the thumb, the thumb is within half a minute's width of the pointer, clamped into the container. |
| Slider.MouseMove | src/index.tsx:69-87 | While dragging, with no reset and a mounted container, the offset becomes the flipped offset under the clamped pointer and the thumb stays inside the container. Otherwise nothing changes. The flags and the document direction never change. |
| Slider.MouseUp | src/index.tsx:210 | Releasing the pointer ends any drag and changes nothing else. |
| Slider.ContainerClick | src/index.tsx:125-146 | A press in the clock area, off the close button, with no reset running, moves the offset to the pointer, shows the tooltip and starts a drag. A press on the close button changes nothing. |
| Slider.KeyDown | src/index.tsx:89-123 | A handled key moves the offset as the key rules say and shows the tooltip. An unhandled key, a running reset or an unmounted container changes nothing. |
| Slider.ResetSlider | src/index.tsx:156-159 | A reset request starts a reset unless one is running or the container is not mounted; otherwise it is ignored. It changes nothing else. |
| Slider.FinishReset | src/index.tsx:178-189 | When the reset finishes, the offset is zero, the tooltip is hidden, the thumb position is cleared (so the thumb is drawn centred), and the reset flag is off. |
| Slider.Refresh | src/index.tsx:148-154 | Corrected `refreshSlider` (see Findings): after a layout the thumb is where the current offset is drawn. It is inside the container for an in-range offset, and nothing but the thumb and the measured box changes. |
| Slider.RefreshAsWritten | src/index.tsx:148-154 | The source's refresh agrees with the corrected one in left-to-right documents. |
| Slider.RefreshAsWrittenConsistency | src/index.tsx:148-154 | The source's refresh leaves the thumb on the offset exactly when the document is left-to-right or the offset is zero. |
| Slider.RefreshAsWrittenMirrorsThumb | src/index.tsx:125-154 | A concrete right-to-left sequence (layout, press, release) followed by a resize leaves the source's thumb at the mirror image of the shown offset. |
| Slider.Step | src/index.tsx:208-246 | Routes each event to the handler that receives it: the window listeners (lines 212-216) take moves, releases and resizes; the clock area (lines 231-232) takes presses, including a thumb press bubbling up from the thumb (lines 244-246, 312-314); the thumb takes keys; the close button (line 357) requests the reset. Every event keeps the document direction, only a layout changes the measured box (and then places the thumb), a release always ends the drag, and in-range offsets stay in range. |
| Slider.StepKeepsRange | src/index.tsx:77-83 | Every event keeps the offset within a day either way. |
| Slider.RunKeepsRange | src/index.tsx:56-191 | Any sequence of events keeps the offset within a day either way. |
| Slider.StepKeepsConsistent | src/index.tsx:85-86 | Every event keeps the thumb where the offset is drawn. A cleared thumb is drawn centred (src/index.tsx:333), so it only occurs with offset zero. |
| Slider.RunKeepsConsistent | src/index.tsx:56-191 | Any sequence of events keeps the thumb where the offset is drawn; a cleared thumb only occurs with offset zero. |
| Slider.Reachable | src/index.tsx:26-31 | From the first render, any sequence of events keeps the offset in range and the thumb on it; a cleared thumb, drawn centred, goes with offset zero. This holds with the corrected refresh; the source's stale resize listener breaks the second half (see Findings). |
| Slider.FrozenWhileResetting | src/index.tsx:63-132 | While a reset runs, pressing the thumb, dragging, pressing the clock area and keys change nothing. |
| Slider.SecondResetIgnored | src/index.tsx:157 | A reset request during a reset is ignored. |
| Slider.ResetReturnsToCentre | src/index.tsx:156-191 | A reset followed by a layout ends at "now": offset zero, tooltip hidden, thumb at the centre. This is the corrected refresh; the source's stale resize listener breaks it (see Findings). |
| Slider.RefreshSeen | src/index.tsx:148-154 | The resize listener's refresh draws the offset its closure saw; it is the source's refresh exactly when that offset is the current one. Nothing but the thumb and the box changes. |
| Slider.StepAsWritten | src/index.tsx:208-225 | Events as the source delivers them: the listeners are registered again after a render that changed `dragging`, and then see that render's offset; otherwise they keep the offset they saw. Every event but a resize behaves as in the model. |
| Slider.StepAsWrittenAgrees | src/index.tsx:208-225 | While the listeners saw the current offset, in a left-to-right document, the source's wiring and the model take every event to the same state. |
| Slider.StaleResizeAfterReset | src/index.tsx:148-225 | Left to right, 960 px: press at 720, release, reset, resize. The source leaves the thumb at 720 while the offset is zero; the model has it at the centre, 480. |
| Slider.StaleResizeAfterKey | src/index.tsx:89-225 | Left to right, 960 px: ArrowRight, then a resize. The source draws the thumb centred while the offset is +0:30; the model draws it at 490. |
| Slider.DragToRightEdge | src/index.tsx:76-86 | Dragging to or past the right edge shows a full day ahead, or a full day behind in a right-to-left document. The thumb sits at the right edge. |

## Left out

- The calendar label of a row (`Today`, `Tomorrow`, `Yesterday` or a short date, src/index.tsx:482-486) and `formatShortDate`. They depend on the clock, the locale and `Intl.DateTimeFormat`.
- Time-zone conversion (`toZonedTime`), `format` and `addMinutes` from date-fns. The model starts from the millisecond difference between the two instants and from the local hour.
- The 1-second ticker (`setNow`) and other clock reads. These are I/O.
- The reset animation (`animateValue`, `easeInOutSine`, `requestAnimationFrame`). Its intermediate frames are not modelled. The two completion callbacks together are one `ResetComplete` event. The ease curve is floating-point trigonometry.
- Right-to-left detection (`useRTL`). The direction is a fixed field of the state.
- Container measurement: the source measures the container again inside every handler (src/index.tsx:74, 93, 135, 151, 161); the model measures it only at a `Layout` event (mount or window resize) and reuses that box. If the box moves or changes width without a resize, for instance when a horizontal scroll shifts `left`, the source maps the pointer with the new box and the model with the old one, and `Consistent` assumes the box has not changed since the thumb was placed.
- DOM plumbing is not modelled: `preventDefault`, touch versus mouse event shapes, `getBoundingClientRect`, and the `closest("[data-close]")` test. These become parameters: the pointer's `clientX`, a measured `Box`, and a flag for a press on the close button.
- Listener closures. The window listeners are re-registered only when `dragging` changes. For the resize listener this is modelled as written (`StepAsWritten`, see Findings). For the move and release listeners it makes no difference, because they read only `dragging`, which is current by construction, `isResetting`, which a click on the close button can only set after a release has ended any drag, and the container reference, which is always current; the model reads the current state there.
- Presentational components: icons, SVG sprites, row layout and the tooltip markup.
- IEEE-754 arithmetic. Positions are exact reals and offsets are unbounded integers.
- Geometry.SliderXFromOffset: requires a positive bound; the source would divide by zero with a bound of 0. The widget always passes 1440.
- Geometry.Width: a container width of zero, for which the source computes NaN, is excluded by the type.
- Slider.ContainerClick: besides moving the offset, a press in the clock area also sets `dragging` (src/index.tsx:145), so a press starts a drag. The model follows the code here.
- Slider.Step: uses the corrected `Refresh` for layout events, with the current offset and the right-to-left flip (see Findings).
- Slider.ResetReturnsToCentre: the source breaks it after a press and release followed by a reset and a resize (`StaleResizeAfterReset`).
- Slider.Reachable: the source breaks "the thumb on the offset" after a key press or a reset followed by a resize (`StaleResizeAfterKey`, `StaleResizeAfterReset`).

## Findings

| source | as written | input that shows it | evidently intended | confidence | as-written member | corrected member |
|---|---|---|---|---|---|---|
| src/index.tsx:148-154 | `refreshSlider` draws the stored offset without the right-to-left flip. The drag, click and key handlers all keep the rule that, in a right-to-left document, the thumb is drawn at the negation of the stored offset. | A right-to-left document with a 960 px container. A press at x = 720 stores offset -720 with the thumb at 720; after release and a window resize the thumb moves to 240, while the tooltip still reads -12:00. | Flip the offset before drawing it, as `handleKeyDown` does at line 117. | not executed; medium | Slider.RefreshAsWritten, Slider.RefreshAsWrittenMirrorsThumb | Slider.Refresh |
| src/index.tsx:208-225 | The effect that registers the window listeners is keyed on `dragging` alone, so the resize listener's `refreshSlider` reads `offsetMinutes` from the render in which `dragging` last changed. Key presses and resets do not change `dragging`. | Left to right, 960 px: press at x = 720 and release (offset 720), reset (offset 0, thumb cleared), then a window resize: the thumb jumps to 720 while the tooltip reads `Now`. Or: ArrowRight, then a resize: the thumb is centred while the tooltip reads `+0:30`. | The resize listener reads the current offset, for instance by keying the effect on the offset too. | not executed; medium | Slider.StepAsWritten, Slider.StaleResizeAfterReset, Slider.StaleResizeAfterKey | Slider.Step, Slider.ResetReturnsToCentre |

=== FILE: day_phase.dfy ===
/**
  The time-of-day icon of a city row (`Utils.getTimeOfDay`): a step function
  of the city's local hour.
 */
module DayPhase {

  datatype TimeOfDay = Sunrise | Day | Sunset | Night

  /** A half-open range of hours [from, until) showing one icon. */
  datatype Band = Band(from: int, until: int, phase: TimeOfDay)

  predicate InBand(b: Band, hour: int) {
    b.from <= hour < b.until
  }

  /** The daylight bands, in the order the day passes through them; every other hour is night. */
  const DaylightBands: seq<Band> := [Band(6, 9, Sunrise), Band(9, 18, Day), Band(18, 20, Sunset)]

  /** Reference reading of a band table: the first band holding the hour, else night. */
  function Lookup(bands: seq<Band>, hour: int): TimeOfDay
    decreases |bands|
  {
    if |bands| == 0 then Night
    else if InBand(bands[0], hour) then bands[0].phase
    else Lookup(bands[1..], hour)
  }

  /** The icon for an hour: each of the four icons on exactly its hours. */
  function GetTimeOfDay(hour: int): (t: TimeOfDay)
    ensures t == Sunrise <==> 6 <= hour < 9
    ensures t == Day <==> 9 <= hour < 18
    ensures t == Sunset <==> 18 <= hour < 20
    ensures t == Night <==> hour < 6 || 20 <= hour
  {
    if 6 <= hour < 9 then Sunrise
    else if 9 <= hour < 18 then Day
    else if 18 <= hour < 20 then Sunset
    else Night
  }

  /** The daylight bands are pairwise disjoint, so the lookup order does not matter. */
  lemma BandsDisjoint(i: nat, j: nat, hour: int)
    requires i < j < |DaylightBands|
    ensures !(InBand(DaylightBands[i], hour) && InBand(DaylightBands[j], hour))
  {
  }

  /** The classifier agrees with the band table for every hour. */
  lemma {:induction false} GetTimeOfDayMatchesBands(hour: int)
    ensures GetTimeOfDay(hour) == Lookup(DaylightBands, hour)
  {
    var b := DaylightBands;
    assert b[1..] == [Band(9, 18, Day), Band(18, 20, Sunset)];
    assert b[1..][1..] == [Band(18, 20, Sunset)];
    assert b[1..][1..][1..] == [];
  }

  /** Position of a daylight phase in the course of the day. */
  function Rank(t: TimeOfDay): nat {
    match t
    case Sunrise => 0
    case Day => 1
    case Sunset => 2
    case Night => 3
  }

  /** From 6:00 until 20:00 the icons only move forward: sunrise, then day, then sunset. */
  lemma DaylightInOrder(h1: int, h2: int)
    requires 6 <= h1 <= h2 < 20
    ensures Rank(GetTimeOfDay(h1)) <= Rank(GetTimeOfDay(h2))
  {
  }

  /** The boundary hours of the four icons. */
  lemma GetTimeOfDayExamples()
    ensures GetTimeOfDay(5) == Night && GetTimeOfDay(6) == Sunrise && GetTimeOfDay(8) == Sunrise
    ensures GetTimeOfDay(9) == Day && GetTimeOfDay(17) == Day
    ensures GetTimeOfDay(18) == Sunset && GetTimeOfDay(19) == Sunset && GetTimeOfDay(20) == Night
  {
  }
}

=== FILE: decimal.dfy ===
/**
  Decimal numerals, as produced by JavaScript's `String(n)` / template-literal
  interpolation of a non-negative integer, and `padStart`. Every label the
  widget shows is built from these.
 */
module Decimal {

  predicate IsDigit(c: char) {
    '0' <= c <= '9'
  }

  predicate AllDigits(s: string) {
    forall i :: 0 <= i < |s| ==> IsDigit(s[i])
  }

  /** A canonical numeral: non-empty, digits only, no leading zero unless it is "0". */
  predicate IsNumeral(s: string) {
    |s| > 0 && AllDigits(s) && (s[0] == '0' ==> |s| == 1)
  }

  function DigitValue(c: char): (d: nat)
    requires IsDigit(c)
    ensures d < 10
  {
    (c as int) - ('0' as int)
  }

  function DigitChar(d: nat): (c: char)
    requires d < 10
    ensures IsDigit(c) && DigitValue(c) == d
  {
    (('0' as int) + d) as char
  }

  /** The number a string of digits denotes, most significant digit first. */
  function Value(s: string): nat
    requires AllDigits(s)
    decreases |s|
  {
    if |s| == 0 then 0 else Value(s[..|s| - 1]) * 10 + DigitValue(s[|s| - 1])
  }

  /** The decimal rendering of `n`: a canonical numeral denoting `n`. */
  function NatToString(n: nat): (s: string)
    ensures IsNumeral(s)
    ensures Value(s) == n
    decreases n
  {
    if n < 10 then [DigitChar(n)]
    else
      var t := NatToString(n / 10);
      var s := t + [DigitChar(n % 10)];
      assert s[..|s| - 1] == t;
      s
  }

  /** A numeral whose first digit is d is worth at least d. */
  lemma {:induction false} ValueAtLeastLeadingDigit(s: string)
    requires |s| > 0 && AllDigits(s)
    ensures Value(s) >= DigitValue(s[0])
    decreases |s|
  {
    if |s| > 1 {
      var t := s[..|s| - 1];
      assert t[0] == s[0];
      ValueAtLeastLeadingDigit(t);
    }
  }

  /** Rendering is the inverse of reading on canonical numerals. */
  lemma {:induction false} NatToStringOfValue(s: string)
    requires IsNumeral(s)
    ensures NatToString(Value(s)) == s
    decreases |s|
  {
    if |s| == 1 {
      assert s == [DigitChar(DigitValue(s[0]))];
    } else {
      var t := s[..|s| - 1];
      assert t[0] == s[0];
      assert IsNumeral(t);
      ValueAtLeastLeadingDigit(t);
      NatToStringOfValue(t);
      var n := Value(s);
      assert n / 10 == Value(t) && n % 10 == DigitValue(s[|s| - 1]);
      assert s == t + [s[|s| - 1]];
      assert DigitChar(n % 10) == s[|s| - 1];
    }
  }

  /** JavaScript's `s.padStart(width, fill)`. */
  function PadStart(s: string, width: nat, fill: char): (r: string)
    ensures |r| == if |s| >= width then |s| else width
    ensures r[|r| - |s|..] == s
    ensures forall i :: 0 <= i < |r| - |s| ==> r[i] == fill
  {
    if |s| >= width then s else seq(width - |s|, _ => fill) + s
  }

  /** `String(n).padStart(2, "0")` for a number below one hundred. */
  function TwoDigits(n: nat): (s: string)
    requires n < 100
    ensures |s| == 2 && AllDigits(s)
    ensures Value(s) == n
  {
    var d := NatToString(n);
    if n < 10 then
      assert d == [DigitChar(n)];
      var s := PadStart(d, 2, '0');
      assert s == ['0', DigitChar(n)];
      assert s[..1] == ['0'];
      s
    else
      assert NatToString(n / 10) == [DigitChar(n / 10)];
      PadStart(d, 2, '0')
  }

  /** Every two-digit string is the padded rendering of the number it denotes. */
  lemma TwoDigitsOfValue(s: string)
    requires |s| == 2 && AllDigits(s)
    ensures Value(s) < 100
    ensures TwoDigits(Value(s)) == s
  {
    assert s[..1] == [s[0]];
    assert s[..1][..0] == [];
    assert Value(s[..1]) == DigitValue(s[0]);
    var n := Value(s);
    assert n == DigitValue(s[0]) * 10 + DigitValue(s[1]);
    if s[0] == '0' {
      assert n == DigitValue(s[1]);
      assert NatToString(n) == [s[1]];
    } else {
      assert IsNumeral(s);
      NatToStringOfValue(s);
    }
  }
}

=== FILE: geometry.dfy ===
/**
  The slider's pixel geometry (`Utils.getOffsetFromSliderX`,
  `Utils.getSliderXFromOffset`) and the clamping the pointer handlers apply,
  over idealised real numbers.
 */
module Geometry {

  /** A measured container width. A zero width makes the source divide by zero. */
  type Width = w: real | w > 0.0 witness 1.0

  /** `Math.round`: the nearest integer, halves rounded up. */
  function Round(x: real): (r: int)
    ensures r as real - 0.5 <= x < r as real + 0.5
  {
    (x + 0.5).Floor
  }

  lemma RoundMonotonic(a: real, b: real)
    requires a <= b
    ensures Round(a) <= Round(b)
  {
  }

  /** A distance within `c` of zero, divided by `c`, lies in [-1, 1]. */
  lemma UnitRatio(a: real, c: real)
    requires c > 0.0 && -c <= a <= c
    ensures -1.0 <= a / c <= 1.0
  {
    assert (a / c) * c == a;
  }

  /** A factor in [-1, 1] keeps a non-negative magnitude within its bounds. */
  lemma ScaleUnit(r: real, m: real, v: real)
    requires -1.0 <= r <= 1.0 && m >= 0.0 && v == r * m
    ensures -m <= v <= m
  {
    MulNonNegative(1.0 - r, m);
    MulNonNegative(1.0 + r, m);
    assert (1.0 - r) * m == m - v;
    assert (1.0 + r) * m == m + v;
  }

  lemma MulNonNegative(a: real, b: real)
    requires a >= 0.0 && b >= 0.0
    ensures a * b >= 0.0
  {
  }

  /** A position inside the container scales to a value within the bounds. */
  lemma ScaledRatioBounds(x: real, width: Width, maxOffset: int, v: real)
    requires v == ((x - width / 2.0) / (width / 2.0)) * maxOffset as real
    ensures 0 <= maxOffset && 0.0 <= x <= width ==> -maxOffset <= Round(v) <= maxOffset
    ensures x == width / 2.0 ==> Round(v) == 0
  {
    var center := width / 2.0;
    var r := (x - center) / center;
    if 0 <= maxOffset && 0.0 <= x <= width {
      UnitRatio(x - center, center);
      ScaleUnit(r, maxOffset as real, v);
    }
    if x == center {
      assert r == 0.0;
      ZeroScaled(r, maxOffset as real, v);
    }
  }

  lemma ZeroScaled(r: real, m: real, v: real)
    requires r == 0.0 && v == r * m
    ensures v == 0.0
  {
  }

  /** Pixel position of an offset: the centre for zero, the edges for the bounds. */
  function SliderXFromOffset(offset: int, width: Width, maxOffset: int): (x: real)
    requires maxOffset > 0
    ensures -maxOffset <= offset <= maxOffset ==> 0.0 <= x <= width
    ensures offset == 0 ==> x == width / 2.0
    ensures offset == maxOffset ==> x == width
    ensures offset == -maxOffset ==> x == 0.0
  {
    var center := width / 2.0;
    var ratio := offset as real / maxOffset as real;
    DrawnInside(offset, width, maxOffset);
    center + ratio * center
  }

  /** An offset within the bounds is drawn within the container. */
  lemma DrawnInside(offset: int, width: Width, maxOffset: int)
    requires maxOffset > 0
    ensures var center := width / 2.0;
      -maxOffset <= offset <= maxOffset ==>
        -center <= (offset as real / maxOffset as real) * center <= center
  {
    var center := width / 2.0;
    if -maxOffset <= offset <= maxOffset {
      UnitRatio(offset as real, maxOffset as real);
      ScaleUnit(offset as real / maxOffset as real, center, (offset as real / maxOffset as real) * center);
    }
  }

  /** Offset under a pixel position, rounded to the nearest minute. */
  function OffsetFromSliderX(x: real, width: Width, maxOffset: int): (offset: int)
    ensures 0 <= maxOffset && 0.0 <= x <= width ==> -maxOffset <= offset <= maxOffset
    ensures x == width / 2.0 ==> offset == 0
  {
    var center := width / 2.0;
    var ratio := (x - center) / center;
    ScaledRatioBounds(x, width, maxOffset, ratio * maxOffset as real);
    Round(ratio * maxOffset as real)
  }

  /** Reading the offset back from the position an offset was drawn at gives that offset. */
  lemma OffsetRoundTrip(offset: int, width: Width, maxOffset: int)
    requires maxOffset > 0
    ensures OffsetFromSliderX(SliderXFromOffset(offset, width, maxOffset), width, maxOffset) == offset
  {
    var center := width / 2.0;
    var ratio := offset as real / maxOffset as real;
    var x := SliderXFromOffset(offset, width, maxOffset);
    assert x - center == ratio * center;
    assert (x - center) / center == ratio;
    assert ratio * maxOffset as real == offset as real;
  }

  /** Larger offsets are drawn further right. */
  lemma SliderXMonotonic(a: int, b: int, width: Width, maxOffset: int)
    requires maxOffset > 0 && a <= b
    ensures SliderXFromOffset(a, width, maxOffset) <= SliderXFromOffset(b, width, maxOffset)
  {
    var center := width / 2.0;
    var m := maxOffset as real;
    var ra := a as real / m;
    var rb := b as real / m;
    DivMonotonic(a as real, b as real, m);
    AffineMonotonic(center, ra, rb, SliderXFromOffset(a, width, maxOffset), SliderXFromOffset(b, width, maxOffset));
  }

  lemma AffineMonotonic(c: real, r1: real, r2: real, x1: real, x2: real)
    requires c > 0.0 && r1 <= r2
    requires x1 == c + r1 * c && x2 == c + r2 * c
    ensures x1 <= x2
  {
    MulMonotonic(r1, r2, c);
  }

  /** Positions further right read as offsets at least as large. */
  lemma OffsetFromSliderXMonotonic(x1: real, x2: real, width: Width, maxOffset: int)
    requires x1 <= x2 && maxOffset >= 0
    ensures OffsetFromSliderX(x1, width, maxOffset) <= OffsetFromSliderX(x2, width, maxOffset)
  {
    var center := width / 2.0;
    var r1 := (x1 - center) / center;
    var r2 := (x2 - center) / center;
    assert r1 <= r2;
    assert r1 * maxOffset as real <= r2 * maxOffset as real;
    RoundMonotonic(r1 * maxOffset as real, r2 * maxOffset as real);
  }

  /** Snapping a position to the nearest minute moves it by at most half a minute's width. */
  lemma SnapDistance(x: real, width: Width, maxOffset: int)
    requires maxOffset > 0
    ensures var snapped := SliderXFromOffset(OffsetFromSliderX(x, width, maxOffset), width, maxOffset);
      -(width / (4.0 * maxOffset as real)) <= snapped - x <= width / (4.0 * maxOffset as real)
  {
    var center := width / 2.0;
    var m := maxOffset as real;
    var o := OffsetFromSliderX(x, width, maxOffset);
    var err := o as real - ((x - center) / center) * m;
    SnapError(x, width, maxOffset);
    ScaledErrorBound(width, m, err, SliderXFromOffset(o, width, maxOffset) - x);
  }

  /** A rounding error of at most half a minute spans at most a quarter of the width per `m` minutes. */
  lemma ScaledErrorBound(width: real, m: real, err: real, d: real)
    requires width > 0.0 && m > 0.0 && -0.5 <= err <= 0.5
    requires d == (err / m) * (width / 2.0)
    ensures -(width / (4.0 * m)) <= d <= width / (4.0 * m)
  {
    var center := width / 2.0;
    DivMonotonic(err, 0.5, m);
    DivMonotonic(-0.5, err, m);
    MulMonotonic(err / m, 0.5 / m, center);
    MulMonotonic(-0.5 / m, err / m, center);
    assert (0.5 / m) * center == width / (4.0 * m);
    assert (-0.5 / m) * center == -(width / (4.0 * m));
  }

  /** The snapping error in pixels is the rounding error in minutes, scaled by a minute's width. */
  lemma SnapError(x: real, width: Width, maxOffset: int)
    requires maxOffset > 0
    ensures var center := width / 2.0;
      var o := OffsetFromSliderX(x, width, maxOffset);
      SliderXFromOffset(o, width, maxOffset) - x
        == ((o as real - ((x - center) / center) * maxOffset as real) / maxOffset as real) * center
  {
    var center := width / 2.0;
    var m := maxOffset as real;
    var ratio := (x - center) / center;
    var o := OffsetFromSliderX(x, width, maxOffset);
    var err := o as real - ratio * m;
    assert x == center + ratio * center;
    assert o as real / m == ratio + err / m;
  }

  lemma DivMonotonic(a: real, b: real, m: real)
    requires a <= b && m > 0.0
    ensures a / m <= b / m
  {
    assert b / m - a / m == (b - a) / m;
    assert (b - a) / m >= 0.0;
  }

  lemma MulMonotonic(a: real, b: real, c: real)
    requires a <= b && c >= 0.0
    ensures a * c <= b * c
  {
    assert (b - a) * c >= 0.0;
  }

  /** `Math.max(lo, Math.min(hi, v))` on integers. */
  function Clamp(lo: int, hi: int, v: int): (r: int)
    requires lo <= hi
    ensures lo <= r <= hi
    ensures lo <= v <= hi ==> r == v
    ensures v < lo ==> r == lo
    ensures hi < v ==> r == hi
  {
    var below := if hi < v then hi else v;
    if below < lo then lo else below
  }

  /** `Math.max(lo, Math.min(hi, v))` on pixel coordinates. */
  function ClampReal(lo: real, hi: real, v: real): (r: real)
    requires lo <= hi
    ensures lo <= r <= hi
    ensures lo <= v <= hi ==> r == v
    ensures v < lo ==> r == lo
    ensures hi < v ==> r == hi
  {
    var below := if hi < v then hi else v;
    if below < lo then lo else below
  }

  /**
    The offset under the pointer, as the drag and click handlers compute it:
    the pointer is clamped into the container, converted, and the offset
    clamped into the bounds.
   */
  function PointerOffset(clientX: real, left: real, width: Width, maxOffset: int): (offset: int)
    requires maxOffset >= 0
    ensures -maxOffset <= offset <= maxOffset
    ensures width <= clientX - left ==> offset == maxOffset
    ensures clientX - left <= 0.0 ==> offset == -maxOffset
  {
    var x := ClampReal(0.0, width, clientX - left);
    EdgeOffsets(width, maxOffset);
    Clamp(-maxOffset, maxOffset, OffsetFromSliderX(x, width, maxOffset))
  }

  /** The two edges of the container read as the two bounds. */
  lemma EdgeOffsets(width: Width, maxOffset: int)
    ensures OffsetFromSliderX(width, width, maxOffset) == maxOffset
    ensures OffsetFromSliderX(0.0, width, maxOffset) == -maxOffset
  {
    var center := width / 2.0;
    assert (width - center) / center == 1.0;
    assert (0.0 - center) / center == -1.0;
  }

  /** Moving the pointer right never decreases the offset under it. */
  lemma PointerOffsetMonotonic(c1: real, c2: real, left: real, width: Width, maxOffset: int)
    requires c1 <= c2 && maxOffset >= 0
    ensures PointerOffset(c1, left, width, maxOffset) <= PointerOffset(c2, left, width, maxOffset)
  {
    OffsetFromSliderXMonotonic(ClampReal(0.0, width, c1 - left), ClampReal(0.0, width, c2 - left), width, maxOffset);
  }

  /** The right-to-left sign flip applied to offsets derived from horizontal position. */
  function Directed(rtl: bool, offset: int): (r: int)
    ensures rtl ==> r + offset == 0
    ensures !rtl ==> r == offset
  {
    if rtl then -offset else offset
  }

  /** Flipping twice restores the offset, so the stored and the drawn offset determine each other. */
  lemma DirectedInvolution(rtl: bool, offset: int)
    ensures Directed(rtl, Directed(rtl, offset)) == offset
  {
  }
}

=== FILE: keyboard.dfy ===
/** Keyboard stepping of the slider (`handleKeyDown`): jumps to the bounds and half-hour steps. */
module Keyboard {
  import opened Options

  /** The largest offset either way, a full day in minutes. */
  const TimeBound: int := 1440

  /** Minutes moved by one arrow key press. */
  const KeyStepMinutes: int := 30

  predicate InRange(offset: int) {
    -TimeBound <= offset <= TimeBound
  }

  predicate TowardEnd(key: string) {
    key == "ArrowUp" || key == "ArrowRight"
  }

  predicate TowardStart(key: string) {
    key == "ArrowDown" || key == "ArrowLeft"
  }

  /** The keys the handler acts on; any other key returns before touching the state. */
  predicate Handled(key: string) {
    key == "Home" || key == "End" || TowardEnd(key) || TowardStart(key)
  }

  /**
    The offset a key press moves to, or `None` for a key the handler ignores.
    Home and End jump to the bounds; arrows move half an hour, stopping at the bound.
   */
  function KeyStep(key: string, offset: int): (r: Option<int>)
    ensures r.Some? <==> Handled(key)
    ensures key == "Home" ==> r == Some(-TimeBound)
    ensures key == "End" ==> r == Some(TimeBound)
    ensures TowardEnd(key) ==>
              && r.Some? && r.value <= TimeBound
              && (r.value == offset + KeyStepMinutes || (r.value == TimeBound && offset + KeyStepMinutes > TimeBound))
    ensures TowardStart(key) ==>
              && r.Some? && -TimeBound <= r.value
              && (r.value == offset - KeyStepMinutes || (r.value == -TimeBound && offset - KeyStepMinutes < -TimeBound))
    ensures InRange(offset) && r.Some? ==> InRange(r.value)
  {
    if key == "Home" then Some(-TimeBound)
    else if key == "End" then Some(TimeBound)
    else if TowardEnd(key) then Some(if TimeBound < offset + KeyStepMinutes then TimeBound else offset + KeyStepMinutes)
    else if TowardStart(key) then Some(if offset - KeyStepMinutes < -TimeBound then -TimeBound else offset - KeyStepMinutes)
    else None
  }

  /** The offset after pressing `key` `presses` times; an ignored key leaves it alone. */
  function Press(key: string, presses: nat, offset: int): int
    decreases presses
  {
    if presses == 0 then offset
    else
      var next := match KeyStep(key, offset) case Some(o) => o case None => offset;
      Press(key, presses - 1, next)
  }

  /** Stepping back after a step forward that did not hit the end restores the offset. */
  lemma StepBackUndoesStep(offset: int)
    requires InRange(offset) && offset + KeyStepMinutes <= TimeBound
    ensures KeyStep("ArrowLeft", KeyStep("ArrowRight", offset).value) == Some(offset)
  {
  }

  /** Repeated forward steps advance half an hour each, stopping at the end bound. */
  lemma {:induction false} PressTowardEnd(key: string, presses: nat, offset: int)
    requires TowardEnd(key) && InRange(offset)
    ensures Press(key, presses, offset)
      == if offset + presses * KeyStepMinutes <= TimeBound then offset + presses * KeyStepMinutes else TimeBound
    decreases presses
  {
    if presses > 0 {
      var next := KeyStep(key, offset).value;
      PressTowardEnd(key, presses - 1, next);
    }
  }

  /** Ninety-six arrow presses cross the whole range, from one bound to the other. */
  lemma CrossRange()
    ensures Press("ArrowRight", 96, -TimeBound) == TimeBound
  {
    PressTowardEnd("ArrowRight", 96, -TimeBound);
  }
}

=== FILE: minutes.dfy ===
/** Signed minute counts and their hours-and-minutes decomposition. */
module Minutes {

  const MinutesPerHour: nat := 60

  /** `Math.abs` on an integer. */
  function Abs(m: int): (a: nat)
    ensures a == m || a == -m
  {
    if m < 0 then -m else m
  }

  /** A magnitude written as whole hours plus a remainder of minutes. */
  datatype HoursMinutes = HoursMinutes(hours: nat, minutes: nat)

  /** `Math.floor(abs / 60)` and `abs % 60`: the decomposition of a magnitude. */
  function Decompose(total: nat): (hm: HoursMinutes)
    ensures hm.hours * MinutesPerHour + hm.minutes == total
    ensures hm.minutes < MinutesPerHour
  {
    HoursMinutes(total / MinutesPerHour, total % MinutesPerHour)
  }

  /** The decomposition is the only one with a remainder below an hour. */
  lemma DecomposeUnique(total: nat, hours: nat, minutes: nat)
    requires hours * MinutesPerHour + minutes == total
    requires minutes < MinutesPerHour
    ensures Decompose(total) == HoursMinutes(hours, minutes)
  {
  }
}

=== FILE: offset_label.dfy ===
/**
  The slider's value text (`Utils.formatOffset`): "Now" at offset zero,
  otherwise a sign, whole hours, a colon and two-digit minutes.
 */
module OffsetLabel {
  import opened Options
  import opened Decimal
  import opened Minutes

  /** The label shown in the tooltip and as the slider's `aria-valuetext`. */
  function FormatOffset(mins: int): (r: string)
    ensures mins == 0 <==> r == "Now"
    ensures mins != 0 ==> |r| >= 5 && r[0] == (if mins > 0 then '+' else '-')
  {
    if mins == 0 then "Now"
    else
      var sign := if mins >= 0 then "+" else "-";
      var hm := Decompose(Abs(mins));
      sign + NatToString(hm.hours) + ":" + TwoDigits(hm.minutes)
  }

  /**
    Reads a label back into a signed minute count. It accepts exactly the
    strings `FormatOffset` produces: "Now", or '+'/'-', a canonical numeral
    of hours, ':', two digits below 60, denoting a non-zero magnitude.
   */
  function ParseOffsetLabel(s: string): Option<int> {
    if s == "Now" then Some(0)
    else if |s| < 5 || (s[0] != '+' && s[0] != '-') || s[|s| - 3] != ':' then None
    else
      var hours := s[1..|s| - 3];
      var mins := s[|s| - 2..];
      if !IsNumeral(hours) || !AllDigits(mins) || Value(mins) >= MinutesPerHour then None
      else
        var total := Value(hours) * MinutesPerHour + Value(mins);
        if total == 0 then None
        else if s[0] == '+' then Some(total)
        else Some(-total)
  }

  /** Every offset's label reads back as that offset. */
  lemma FormatOffsetRoundTrip(mins: int)
    ensures ParseOffsetLabel(FormatOffset(mins)) == Some(mins)
  {
    if mins != 0 {
      var hm := Decompose(Abs(mins));
      var sign := if mins >= 0 then '+' else '-';
      var h := NatToString(hm.hours);
      var mm := TwoDigits(hm.minutes);
      assert FormatOffset(mins) == [sign] + h + ":" + mm;
      ReadLabel(sign, h, mm, Abs(mins));
    }
  }

  /** A sign, a numeral, a colon and two digits read back as the signed magnitude they spell. */
  lemma ReadLabel(sign: char, h: string, mm: string, total: nat)
    requires sign == '+' || sign == '-'
    requires IsNumeral(h) && |mm| == 2 && AllDigits(mm) && Value(mm) < MinutesPerHour
    requires total == Value(h) * MinutesPerHour + Value(mm) && total > 0
    ensures ParseOffsetLabel([sign] + h + ":" + mm) == Some(if sign == '+' then total as int else -(total as int))
  {
    var s := [sign] + h + ":" + mm;
    LabelSlices(sign, h, mm);
    ReadLabelFields(s, h, mm, total);
  }

  /** Where the sign, hours, colon and minutes of a label sit. */
  lemma LabelSlices(sign: char, h: string, mm: string)
    requires |h| >= 1 && |mm| == 2
    ensures var s := [sign] + h + ":" + mm;
      && |s| >= 5 && s[0] == sign && s[|s| - 3] == ':'
      && s[1..|s| - 3] == h && s[|s| - 2..] == mm
  {
  }

  /** The parser on a string whose fields have already been located. */
  lemma ReadLabelFields(s: string, h: string, mm: string, total: nat)
    requires |s| >= 5 && (s[0] == '+' || s[0] == '-') && s[|s| - 3] == ':'
    requires s[1..|s| - 3] == h && s[|s| - 2..] == mm
    requires IsNumeral(h) && |mm| == 2 && AllDigits(mm) && Value(mm) < MinutesPerHour
    requires total == Value(h) * MinutesPerHour + Value(mm) && total > 0
    ensures ParseOffsetLabel(s) == Some(if s[0] == '+' then total as int else -(total as int))
  {
    assert s != "Now" by {
      assert "Now"[0] == 'N';
    }
  }

  /** Every string the parser accepts is the label of the offset it denotes. */
  lemma ParseOffsetLabelCanonical(s: string, mins: int)
    requires ParseOffsetLabel(s) == Some(mins)
    ensures FormatOffset(mins) == s
  {
    if s != "Now" {
      var hours := s[1..|s| - 3];
      var mm := s[|s| - 2..];
      assert IsNumeral(hours) && AllDigits(mm) && Value(mm) < MinutesPerHour;
      var total := Value(hours) * MinutesPerHour + Value(mm);
      assert total > 0 && Abs(mins) == total;
      assert mins > 0 <==> s[0] == '+';
      NatToStringOfValue(hours);
      TwoDigitsOfValue(mm);
      DecomposeUnique(total, Value(hours), Value(mm));
      var sign := if mins >= 0 then "+" else "-";
      assert FormatOffset(mins) == sign + hours + ":" + mm;
      LabelParts(s);
    }
  }

  /** A string with a colon third from the end is its sign, hours, colon and minutes. */
  lemma LabelParts(s: string)
    requires |s| >= 5 && s[|s| - 3] == ':'
    ensures s == [s[0]] + s[1..|s| - 3] + [':'] + s[|s| - 2..]
  {
  }

  /** Two offsets share a label only if they are equal. */
  lemma FormatOffsetInjective(m: int, n: int)
    requires FormatOffset(m) == FormatOffset(n)
    ensures m == n
  {
    FormatOffsetRoundTrip(m);
    FormatOffsetRoundTrip(n);
  }

  /** An hour and a half ahead reads "+1:30". */
  lemma FormatOffsetNinety()
    ensures FormatOffset(90) == "+1:30"
  {
    assert Decompose(Abs(90)) == HoursMinutes(1, 30);
    assert NatToString(1) == "1";
    assert NatToString(3) == "3";
    assert NatToString(30) == "30";
    assert TwoDigits(30) == "30";
  }

  /** Three quarters of an hour behind reads "-0:45". */
  lemma FormatOffsetMinusFortyFive()
    ensures FormatOffset(-45) == "-0:45"
  {
    assert Decompose(Abs(-45)) == HoursMinutes(0, 45);
    assert NatToString(0) == "0";
    assert NatToString(4) == "4";
    assert NatToString(45) == "45";
    assert TwoDigits(45) == "45";
  }
}

=== FILE: options.dfy ===
/** Optional values: the source's nullable results and the handlers' early returns. */
module Options {

  /** `None` stands for an absent value (a `null`, an ignored input, a rejected parse). */
  datatype Option<+T> = None | Some(value: T)
}

=== FILE: relative_offset.dfy ===
/**
  The offset part of a city row's relative timestamp
  (`Utils.getRelativeTimestamp`): the difference between the city's zoned time
  and the viewer's local time, rounded to whole minutes, written out in full
  ("1 hour 30 minutes ahead") and in short ("+1:30").
 */
module RelativeOffset {
  import opened Options
  import opened Decimal
  import opened Minutes
  import opened Words

  const MsPerMinute: nat := 60000

  /** `Math.round(diffMs / 60000)`: the nearest whole minute, halves rounded up. */
  function RoundToMinutes(diffMs: int): (m: int)
    ensures m * MsPerMinute - MsPerMinute / 2 <= diffMs < m * MsPerMinute + MsPerMinute / 2
  {
    (diffMs + MsPerMinute / 2) / MsPerMinute
  }

  /** The two offset descriptions of a row; the calendar label is not part of this model. */
  datatype Description = Description(full: string, short: string)

  /** "hour"/"hours", "minute"/"minutes": singular exactly for a count of one. */
  function Unit(count: nat, singular: string): (u: string)
    ensures u == singular <==> count == 1
    ensures |u| >= |singular| && u[..|singular|] == singular
  {
    if count == 1 then singular else singular + "s"
  }

  /** One entry of the description, such as "30 minutes". */
  function Quantity(count: nat, singular: string): string {
    NatToString(count) + " " + Unit(count, singular)
  }

  /** The entries joined into the full description: hours if any, minutes if any, else "same time". */
  function Parts(hm: HoursMinutes): seq<string> {
    var hours := if hm.hours > 0 then [Quantity(hm.hours, "hour")] else [];
    var minutes := if hm.minutes > 0 then [Quantity(hm.minutes, "minute")] else [];
    if hours + minutes == [] then ["same time"] else hours + minutes
  }

  /** The full description of a rounded difference of `total` minutes. */
  function Full(total: int): (full: string)
    ensures total == 0 ==> full == "same time"
  {
    var body := Join(Parts(Decompose(Abs(total))));
    if total > 0 then body + " ahead"
    else if total < 0 then body + " behind"
    else body
  }

  /** The sign of the short form: '±' only when there is no difference. */
  function SignChar(total: int): (c: char)
    ensures c == '+' <==> total > 0
    ensures c == '-' <==> total < 0
  {
    if total > 0 then '+' else if total < 0 then '-' else '±'
  }

  /** The short description: "+H:MM" with a minutes remainder, else "+HHR" or "+HHRS". */
  function Short(total: int): (short: string)
    ensures total == 0 ==> short == "±0HRS"
    ensures |short| >= 3 && short[0] == SignChar(total)
  {
    var hm := Decompose(Abs(total));
    var hours := [SignChar(total)] + NatToString(hm.hours);
    if hm.minutes > 0 then hours + ":" + TwoDigits(hm.minutes)
    else
      assert total == 0 ==> NatToString(hm.hours) == "0";
      hours + (if hm.hours == 1 then "HR" else "HRS")
  }

  /** The row's offset descriptions for a millisecond difference between the two instants. */
  function Describe(diffMs: int): (d: Description)
    ensures var total := RoundToMinutes(diffMs);
      && (total == 0 ==> d.full == "same time" && d.short == "±0HRS")
      && (EndsWith(d.full, " ahead") <==> total > 0)
      && (EndsWith(d.full, " behind") <==> total < 0)
  {
    var total := RoundToMinutes(diffMs);
    FullDirection(total);
    Description(Full(total), Short(total))
  }

  predicate EndsWith(s: string, suffix: string) {
    |suffix| <= |s| && s[|s| - |suffix|..] == suffix
  }

  /** The full description ends in " ahead" exactly for a later time and " behind" exactly for an earlier one. */
  lemma FullDirection(total: int)
    ensures EndsWith(Full(total), " ahead") <==> total > 0
    ensures EndsWith(Full(total), " behind") <==> total < 0
  {
    var body := Join(Parts(Decompose(Abs(total))));
    if total > 0 {
      assert Full(total) == body + " ahead";
      AheadSuffix(body);
    } else if total < 0 {
      assert Full(total) == body + " behind";
      BehindSuffix(body);
    } else {
      assert Full(total) == "same time";
      assert "same time"[3..] != " ahead" && "same time"[2..] != " behind";
    }
  }

  lemma AheadSuffix(body: string)
    ensures EndsWith(body + " ahead", " ahead") && !EndsWith(body + " ahead", " behind")
  {
    var s := body + " ahead";
    assert s[|s| - 6..] == " ahead";
    if |s| >= 7 {
      assert s[|s| - 7..][5] == 'a' != " behind"[5];
    }
  }

  lemma BehindSuffix(body: string)
    ensures EndsWith(body + " behind", " behind") && !EndsWith(body + " behind", " ahead")
  {
    var s := body + " behind";
    assert s[|s| - 7..] == " behind";
    assert s[|s| - 6..][4] == 'n' != " ahead"[4];
  }

  /** Reads "N unit" back when the unit is spelled as for a count of N; zero counts are never written. */
  function ReadCount(num: string, unit: string, singular: string): Option<nat> {
    if IsNumeral(num) && Value(num) > 0 && unit == Unit(Value(num), singular) then Some(Value(num))
    else None
  }

  /** The minute magnitude spelled by the words of the full description before its direction. */
  function ReadMagnitude(ws: seq<string>): Option<nat> {
    if |ws| == 2 then
      match ReadCount(ws[0], ws[1], "hour")
      case Some(h) => Some(h * MinutesPerHour)
      case None =>
        match ReadCount(ws[0], ws[1], "minute")
        case Some(m) => if m < MinutesPerHour then Some(m) else None
        case None => None
    else if |ws| == 4 then
      match (ReadCount(ws[0], ws[1], "hour"), ReadCount(ws[2], ws[3], "minute"))
      case (Some(h), Some(m)) => if m < MinutesPerHour then Some(h * MinutesPerHour + m) else None
      case _ => None
    else None
  }

  /** Reads a full description back into a signed minute count. */
  function ParseFull(s: string): Option<int> {
    var ws := Split(s);
    if ws == ["same", "time"] then Some(0)
    else if |ws| < 3 then None
    else
      match ReadMagnitude(ws[..|ws| - 1])
      case None => None
      case Some(m) =>
        if ws[|ws| - 1] == "ahead" then Some(m)
        else if ws[|ws| - 1] == "behind" then Some(-(m as int))
        else None
  }

  /** The words of a non-zero magnitude: count and unit for the hours, then for the minutes. */
  function MagnitudeWords(hm: HoursMinutes): seq<string> {
    (if hm.hours > 0 then [NatToString(hm.hours), Unit(hm.hours, "hour")] else [])
    + (if hm.minutes > 0 then [NatToString(hm.minutes), Unit(hm.minutes, "minute")] else [])
  }

  lemma NumeralIsWord(n: nat)
    ensures IsWord(NatToString(n))
  {
  }

  /** The entries of a non-zero magnitude, joined, are its words joined. */
  lemma PartsAreWords(hm: HoursMinutes)
    requires hm.hours > 0 || hm.minutes > 0
    ensures Join(Parts(hm)) == Join(MagnitudeWords(hm))
    ensures 2 <= |MagnitudeWords(hm)| && forall k :: 0 <= k < |MagnitudeWords(hm)| ==> IsWord(MagnitudeWords(hm)[k])
  {
    NumeralIsWord(hm.hours);
    NumeralIsWord(hm.minutes);
    var hw := [NatToString(hm.hours), Unit(hm.hours, "hour")];
    var mw := [NatToString(hm.minutes), Unit(hm.minutes, "minute")];
    assert Quantity(hm.hours, "hour") == Join(hw);
    assert Quantity(hm.minutes, "minute") == Join(mw);
    if hm.hours > 0 && hm.minutes > 0 {
      JoinAppend(hw, mw);
      JoinAppend([Join(hw)], [Join(mw)]);
    }
  }

  /** The magnitude words read back as the magnitude. */
  lemma ReadMagnitudeWords(hm: HoursMinutes, total: nat)
    requires hm.hours > 0 || hm.minutes > 0
    requires hm.minutes < MinutesPerHour
    requires total == hm.hours * MinutesPerHour + hm.minutes
    ensures ReadMagnitude(MagnitudeWords(hm)) == Some(total)
  {
    if hm.hours == 0 {
      assert Unit(hm.minutes, "minute") != Unit(hm.minutes, "hour") by {
        assert Unit(hm.minutes, "minute")[1] == 'i';
      }
    }
  }

  /** The direction word closing the full description of a non-zero difference. */
  function Direction(total: int): string {
    if total > 0 then "ahead" else "behind"
  }

  /** A non-zero full description is its magnitude words and direction, joined. */
  lemma FullWords(total: int)
    requires total != 0
    ensures var words := MagnitudeWords(Decompose(Abs(total))) + [Direction(total)];
      && Full(total) == Join(words)
      && |words| >= 1
      && forall k :: 0 <= k < |words| ==> IsWord(words[k])
  {
    var hm := Decompose(Abs(total));
    var words := MagnitudeWords(hm);
    var dir := Direction(total);
    PartsAreWords(hm);
    assert IsWord(dir);
    AppendWord(words, dir);
    assert Full(total) == Join(Parts(hm)) + " " + dir;
  }

  /** Every full description reads back as the rounded difference it describes. */
  lemma FullRoundTrip(total: int)
    ensures ParseFull(Full(total)) == Some(total)
  {
    if total == 0 {
      assert Full(total) == Join(["same", "time"]);
      SplitJoin(["same", "time"]);
    } else {
      NonZeroFullRoundTrip(total);
    }
  }

  lemma NonZeroFullRoundTrip(total: int)
    requires total != 0
    ensures ParseFull(Full(total)) == Some(total)
  {
    var hm := Decompose(Abs(total));
    var words := MagnitudeWords(hm);
    FullWords(total);
    SplitJoin(words + [Direction(total)]);
    ReadMagnitudeWords(hm, Abs(total));
    ParseDirected(Full(total), words, Direction(total), Abs(total));
    assert Direction(total) == "ahead" <==> total > 0 by {
      assert "behind"[0] != "ahead"[0];
    }
  }

  /** A description whose words are a magnitude and a direction reads as the signed magnitude. */
  lemma ParseDirected(s: string, words: seq<string>, dir: string, m: nat)
    requires Split(s) == words + [dir]
    requires ReadMagnitude(words) == Some(m)
    requires dir == "ahead" || dir == "behind"
    ensures ParseFull(s) == Some(if dir == "ahead" then m else -(m as int))
  {
    var ws := Split(s);
    assert |words| == 2 || |words| == 4;
    assert ws[|ws| - 1] == dir && ws[..|ws| - 1] == words;
    assert ws != ["same", "time"] by {
      assert ws[|ws| - 1] != "time";
    }
  }

  /** The minute magnitude spelled by a short description after its sign. */
  function ReadShortMagnitude(body: string): Option<nat> {
    if EndsWith(body, "HRS") && IsNumeral(body[..|body| - 3]) && Value(body[..|body| - 3]) != 1 then
      Some(Value(body[..|body| - 3]) * MinutesPerHour)
    else if EndsWith(body, "HR") && body[..|body| - 2] == "1" then
      Some(MinutesPerHour)
    else if |body| >= 4 && body[|body| - 3] == ':' && IsNumeral(body[..|body| - 3])
      && AllDigits(body[|body| - 2..]) && 0 < Value(body[|body| - 2..]) < MinutesPerHour then
      Some(Value(body[..|body| - 3]) * MinutesPerHour + Value(body[|body| - 2..]))
    else None
  }

  /** Reads a short description back into a signed minute count. */
  function ParseShort(s: string): Option<int> {
    if |s| == 0 then None
    else
      match ReadShortMagnitude(s[1..])
      case None => None
      case Some(m) =>
        if s[0] == '+' && m > 0 then Some(m)
        else if s[0] == '-' && m > 0 then Some(-(m as int))
        else if s[0] == '±' && m == 0 then Some(0)
        else None
  }

  /** "H:MM" reads back as H hours and MM minutes. */
  lemma ReadClockForm(hours: nat, minutes: nat, total: nat)
    requires 0 < minutes < MinutesPerHour
    requires total == hours * MinutesPerHour + minutes
    ensures ReadShortMagnitude(NatToString(hours) + ":" + TwoDigits(minutes)) == Some(total)
  {
    var h := NatToString(hours);
    var body := h + ":" + TwoDigits(minutes);
    assert body[..|body| - 3] == h;
    assert body[|body| - 2..] == TwoDigits(minutes);
    assert IsDigit(body[|body| - 1]);
    assert !EndsWith(body, "HRS") && !EndsWith(body, "HR");
  }

  /** "HHRS" reads back as H whole hours, for any H but one. */
  lemma ReadHoursForm(hours: nat, total: nat)
    requires hours != 1
    requires total == hours * MinutesPerHour
    ensures ReadShortMagnitude(NatToString(hours) + "HRS") == Some(total)
  {
    var body := NatToString(hours) + "HRS";
    assert body[..|body| - 3] == NatToString(hours);
  }

  /** "1HR" reads back as one hour. */
  lemma ReadOneHourForm(total: nat)
    requires total == MinutesPerHour
    ensures ReadShortMagnitude(NatToString(1) + "HR") == Some(total)
  {
    var body := NatToString(1) + "HR";
    assert NatToString(1) == "1";
    assert body[|body| - 1] != 'S';
    assert body[..|body| - 2] == "1";
  }

  /** The part of a short description after its sign spells the magnitude. */
  lemma ShortBodyMagnitude(total: int)
    ensures ReadShortMagnitude(Short(total)[1..]) == Some(Abs(total))
  {
    var hm := Decompose(Abs(total));
    if hm.minutes > 0 {
      ShortClockBody(total, hm);
    } else if hm.hours == 1 {
      ShortOneHourBody(total, hm);
    } else {
      ShortHoursBody(total, hm);
    }
  }

  lemma ShortClockBody(total: int, hm: HoursMinutes)
    requires hm == Decompose(Abs(total)) && hm.minutes > 0
    ensures ReadShortMagnitude(Short(total)[1..]) == Some(Abs(total))
  {
    var body := NatToString(hm.hours) + ":" + TwoDigits(hm.minutes);
    assert Short(total) == [SignChar(total)] + body;
    AfterSign(SignChar(total), body);
    ReadClockForm(hm.hours, hm.minutes, Abs(total));
  }

  lemma ShortOneHourBody(total: int, hm: HoursMinutes)
    requires hm == Decompose(Abs(total)) && hm.minutes == 0 && hm.hours == 1
    ensures ReadShortMagnitude(Short(total)[1..]) == Some(Abs(total))
  {
    var body := NatToString(1) + "HR";
    assert Short(total) == [SignChar(total)] + body;
    AfterSign(SignChar(total), body);
    ReadOneHourForm(Abs(total));
  }

  lemma ShortHoursBody(total: int, hm: HoursMinutes)
    requires hm == Decompose(Abs(total)) && hm.minutes == 0 && hm.hours != 1
    ensures ReadShortMagnitude(Short(total)[1..]) == Some(Abs(total))
  {
    var body := NatToString(hm.hours) + "HRS";
    assert Short(total) == [SignChar(total)] + body;
    AfterSign(SignChar(total), body);
    ReadHoursForm(hm.hours, Abs(total));
  }

  /** Dropping the sign character leaves the rest. */
  lemma AfterSign(sign: char, body: string)
    ensures ([sign] + body)[1..] == body
  {
  }

  /** Every short description reads back as the rounded difference it describes. */
  lemma ShortRoundTrip(total: int)
    ensures ParseShort(Short(total)) == Some(total)
  {
    ShortBodyMagnitude(total);
  }

  /** Both descriptions of a row read back as the rounded difference between its instants. */
  lemma DescribeRoundTrip(diffMs: int)
    ensures ParseFull(Describe(diffMs).full) == Some(RoundToMinutes(diffMs))
    ensures ParseShort(Describe(diffMs).short) == Some(RoundToMinutes(diffMs))
  {
    FullRoundTrip(RoundToMinutes(diffMs));
    ShortRoundTrip(RoundToMinutes(diffMs));
  }

  /** A city an hour and a half ahead. */
  lemma DescribeNinetyMinutesAhead()
    ensures Describe(90 * MsPerMinute) == Description("1 hour 30 minutes ahead", "+1:30")
  {
    assert RoundToMinutes(90 * MsPerMinute) == 90;
    FullNinety();
    ShortNinety();
  }

  lemma FullNinety()
    ensures Full(90) == "1 hour 30 minutes ahead"
  {
    assert Decompose(Abs(90)) == HoursMinutes(1, 30);
    assert NatToString(1) == "1" && NatToString(3) == "3" && NatToString(30) == "30";
    assert Quantity(1, "hour") == "1 hour";
    assert Quantity(30, "minute") == "30 minutes";
    assert Parts(HoursMinutes(1, 30)) == ["1 hour", "30 minutes"];
    assert Join(["1 hour", "30 minutes"]) == "1 hour 30 minutes";
  }

  lemma ShortNinety()
    ensures Short(90) == "+1:30"
  {
    assert Decompose(Abs(90)) == HoursMinutes(1, 30);
    assert NatToString(1) == "1" && NatToString(3) == "3" && NatToString(30) == "30";
    assert TwoDigits(30) == "30";
    assert [SignChar(90)] + NatToString(1) == "+1";
  }

  /** Each unit is singular exactly for a count of one, independently of the other. */
  lemma FullPlurals()
    ensures Full(121) == "2 hours 1 minute ahead"
    ensures Full(-119) == "1 hour 59 minutes behind"
  {
    assert Decompose(Abs(121)) == HoursMinutes(2, 1);
    assert Decompose(Abs(-119)) == HoursMinutes(1, 59);
    assert NatToString(1) == "1" && NatToString(2) == "2" && NatToString(5) == "5" && NatToString(59) == "59";
    assert Quantity(2, "hour") == "2 hours";
    assert Quantity(1, "minute") == "1 minute";
    assert Quantity(1, "hour") == "1 hour";
    assert Quantity(59, "minute") == "59 minutes";
    assert Parts(HoursMinutes(2, 1)) == ["2 hours", "1 minute"];
    assert Parts(HoursMinutes(1, 59)) == ["1 hour", "59 minutes"];
    assert Join(["2 hours", "1 minute"]) == "2 hours 1 minute";
    assert Join(["1 hour", "59 minutes"]) == "1 hour 59 minutes";
  }

  /** A city an hour behind. */
  lemma DescribeOneHourBehind()
    ensures Describe(-60 * MsPerMinute) == Description("1 hour behind", "-1HR")
  {
    assert RoundToMinutes(-60 * MsPerMinute) == -60;
    assert Decompose(Abs(-60)) == HoursMinutes(1, 0);
    assert NatToString(1) == "1";
    assert Quantity(1, "hour") == "1 hour";
    assert Parts(HoursMinutes(1, 0)) == ["1 hour"];
    assert Full(-60) == "1 hour behind";
    assert [SignChar(-60)] + NatToString(1) == "-1";
    assert Short(-60) == "-1HR";
  }

  /** Half a minute rounds up to a whole minute; just under half a minute rounds to the same time. */
  lemma RoundingAtHalfMinute()
    ensures RoundToMinutes(30000) == 1
    ensures RoundToMinutes(29999) == 0
    ensures RoundToMinutes(-30000) == 0
    ensures RoundToMinutes(-30001) == -1
  {
  }
}

=== FILE: slider.dfy ===
/**
  The interaction state of `WorldClockSlider` and how each input event
  changes it. The reset animation is collapsed into the `ResetComplete`
  event that its completion callbacks stand for.
 */
module Slider {
  import opened Options
  import opened Geometry
  import opened Keyboard

  /** The container's measured horizontal extent. */
  datatype Box = Box(left: real, width: Width)

  datatype State = State(
    offset: int,            // offsetMinutes
    sliderX: Option<real>,  // pixel position of the thumb; None draws it centred
    dragging: bool,
    showTooltip: bool,
    resetting: bool,
    rtl: bool,              // document direction, fixed while the widget is shown
    container: Option<Box>) // None until the container has been mounted and measured

  datatype Event =
    | ThumbPress(clientX: real)                  // mouse-down / touch-start on the thumb
    | PointerMove(clientX: real)                 // mouse-move / touch-move anywhere in the window
    | PointerUp                                  // mouse-up / touch-end anywhere in the window
    | ContainerPress(clientX: real, onClose: bool) // mouse-down / touch-start in the clock area
    | KeyPress(key: string)                      // key-down on the focused slider
    | ResetRequest                               // the tooltip's close button
    | ResetComplete                              // both reset animations have finished
    | Layout(box: Box)                           // mount or window resize: container measured again

  /** The widget as first rendered. */
  function Init(rtl: bool): (s: State)
    ensures s.offset == 0 && s.sliderX.None? && s.container.None? && s.rtl == rtl
    ensures InRange(s.offset) && Consistent(s)
    ensures !s.dragging && !s.showTooltip && !s.resetting
  {
    State(0, None, false, false, false, rtl, None)
  }

  /** The thumb position an offset is drawn at: the stored offset is flipped back in right-to-left documents. */
  function ThumbX(rtl: bool, offset: int, width: Width): real {
    SliderXFromOffset(Directed(rtl, offset), width, TimeBound)
  }

  /**
    The thumb is drawn where the current offset belongs: a cleared position is
    drawn centred, which is where offset zero belongs.
   */
  predicate Consistent(s: State) {
    && (s.sliderX.Some? ==> s.container.Some? && s.sliderX.value == ThumbX(s.rtl, s.offset, s.container.value.width))
    && (s.sliderX.None? ==> s.offset == 0)
  }

  /**
    `handleMouseDown` on its own: starts a drag and shows the tooltip, unless a
    reset is running. The press then bubbles to the container (see `ThumbDown`).
   */
  function MouseDown(s: State): (r: State)
    ensures s.resetting ==> r == s
    ensures !s.resetting ==> r == s.(dragging := true, showTooltip := true)
  {
    if s.resetting then s else s.(dragging := true, showTooltip := true)
  }

  /** `handleMouseMove`: while dragging, the offset follows the pointer. */
  function MouseMove(s: State, clientX: real): (r: State)
    ensures s.resetting || !s.dragging || s.container.None? ==> r == s
    ensures r.dragging == s.dragging && r.showTooltip == s.showTooltip && r.resetting == s.resetting
    ensures r.rtl == s.rtl && r.container == s.container
    ensures InRange(s.offset) ==> InRange(r.offset)
    ensures !s.resetting && s.dragging && s.container.Some? ==>
              var box := s.container.value;
              && r.offset == Directed(s.rtl, PointerOffset(clientX, box.left, box.width, TimeBound))
              && r.sliderX.Some?
              && 0.0 <= r.sliderX.value <= box.width
  {
    if s.resetting || !s.dragging || s.container.None? then s
    else
      var box := s.container.value;
      var clamped := PointerOffset(clientX, box.left, box.width, TimeBound);
      s.(offset := Directed(s.rtl, clamped), sliderX := Some(SliderXFromOffset(clamped, box.width, TimeBound)))
  }

  /** The window's pointer-up listener: the drag ends, whatever else is going on. */
  function MouseUp(s: State): (r: State)
    ensures !r.dragging
    ensures r.(dragging := s.dragging) == s
  {
    s.(dragging := false)
  }

  /**
    `handleContainerClick`: a press in the clock area moves the offset to the
    pointer, shows the tooltip and starts a drag; a press on the close button
    is left to the button.
   */
  function ContainerClick(s: State, clientX: real, onClose: bool): (r: State)
    ensures s.resetting || onClose || s.container.None? ==> r == s
    ensures r.resetting == s.resetting && r.rtl == s.rtl && r.container == s.container
    ensures InRange(s.offset) ==> InRange(r.offset)
    ensures !s.resetting && !onClose && s.container.Some? ==>
              var box := s.container.value;
              && r.offset == Directed(s.rtl, PointerOffset(clientX, box.left, box.width, TimeBound))
              && r.dragging && r.showTooltip
  {
    if s.resetting || onClose || s.container.None? then s
    else
      var box := s.container.value;
      var clamped := PointerOffset(clientX, box.left, box.width, TimeBound);
      s.(offset := Directed(s.rtl, clamped),
         sliderX := Some(SliderXFromOffset(clamped, box.width, TimeBound)),
         showTooltip := true,
         dragging := true)
  }

  /** `handleKeyDown`: a handled key moves the offset and shows the tooltip; other keys change nothing. */
  function KeyDown(s: State, key: string): (r: State)
    ensures s.resetting || s.container.None? || !Handled(key) ==> r == s
    ensures r.dragging == s.dragging && r.resetting == s.resetting && r.rtl == s.rtl && r.container == s.container
    ensures InRange(s.offset) ==> InRange(r.offset)
    ensures !s.resetting && s.container.Some? && Handled(key) ==>
              Some(r.offset) == KeyStep(key, s.offset) && r.showTooltip
  {
    if s.resetting || s.container.None? then s
    else
      match KeyStep(key, s.offset)
      case None => s
      case Some(next) =>
        s.(offset := next, sliderX := Some(ThumbX(s.rtl, next, s.container.value.width)), showTooltip := true)
  }

  /** `resetSlider`: starts the snap back to "now", unless one is already running. */
  function ResetSlider(s: State): (r: State)
    ensures s.resetting || s.container.None? ==> r == s
    ensures s.container.Some? ==> r.resetting
    ensures r.(resetting := s.resetting) == s
  {
    if s.resetting || s.container.None? then s else s.(resetting := true)
  }

  /** The completion callbacks of the two reset animations, taken together. */
  function FinishReset(s: State): (r: State)
    ensures !s.resetting ==> r == s
    ensures s.resetting ==>
              && !r.resetting && r.offset == 0 && !r.showTooltip && r.sliderX.None?
              && r.dragging == s.dragging && r.rtl == s.rtl && r.container == s.container
  {
    if !s.resetting then s
    else s.(resetting := false, offset := 0, showTooltip := false, sliderX := None)
  }

  /**
    `refreshSlider` after the container is mounted or resized, placing the
    thumb where the current offset is drawn.
   */
  function Refresh(s: State, box: Box): (r: State)
    ensures r.container == Some(box) && r.sliderX.Some?
    ensures r.(sliderX := s.sliderX, container := s.container) == s
    ensures InRange(s.offset) ==> 0.0 <= r.sliderX.value <= box.width
    ensures Consistent(r)
  {
    s.(container := Some(box), sliderX := Some(ThumbX(s.rtl, s.offset, box.width)))
  }

  /** `refreshSlider` as the source writes it: the stored offset is drawn without the right-to-left flip. */
  function RefreshAsWritten(s: State, box: Box): (r: State)
    ensures r.container == Some(box) && r.sliderX.Some?
    ensures !s.rtl ==> r == Refresh(s, box)
  {
    s.(container := Some(box), sliderX := Some(SliderXFromOffset(s.offset, box.width, TimeBound)))
  }

  /**
    A press on the thumb: the thumb's own handler runs first, then the press
    bubbles up to the clock area, whose handler moves the offset to the pointer.
   */
  function ThumbDown(s: State, clientX: real): (r: State)
    ensures s.resetting ==> r == s
    ensures !s.resetting ==> r.dragging && r.showTooltip
    ensures r.resetting == s.resetting && r.rtl == s.rtl && r.container == s.container
    ensures !s.resetting && s.container.Some? ==>
              r == ContainerClick(s, clientX, false)
    ensures !s.resetting && s.container.None? ==>
              r == s.(dragging := true, showTooltip := true)
  {
    ContainerClick(MouseDown(s), clientX, false)
  }

  /**
    One event, delivered to the handler that receives it: the window listeners
    take moves, releases and resizes; the clock area takes presses, the thumb's
    press bubbling up to it; the thumb takes keys; the close button requests
    the reset.
   */
  function Step(s: State, e: Event): (r: State)
    ensures r.rtl == s.rtl
    ensures !e.Layout? ==> r.container == s.container
    ensures InRange(s.offset) ==> InRange(r.offset)
    ensures e.PointerUp? ==> !r.dragging
    ensures e.Layout? ==> r.container == Some(e.box) && r.sliderX.Some?
  {
    match e
    case ThumbPress(x) => ThumbDown(s, x)
    case PointerMove(x) => MouseMove(s, x)
    case PointerUp => MouseUp(s)
    case ContainerPress(x, onClose) => ContainerClick(s, x, onClose)
    case KeyPress(key) => KeyDown(s, key)
    case ResetRequest => ResetSlider(s)
    case ResetComplete => FinishReset(s)
    case Layout(box) => Refresh(s, box)
  }

  /** A sequence of events, in order. */
  function Run(s: State, events: seq<Event>): State
    decreases |events|
  {
    if |events| == 0 then s else Run(Step(s, events[0]), events[1..])
  }

  /** Every event keeps the offset within a day either way. */
  lemma StepKeepsRange(s: State, e: Event)
    requires InRange(s.offset)
    ensures InRange(Step(s, e).offset)
  {
  }

  lemma {:induction false} RunKeepsRange(s: State, events: seq<Event>)
    requires InRange(s.offset)
    ensures InRange(Run(s, events).offset)
    decreases |events|
  {
    if |events| > 0 {
      StepKeepsRange(s, events[0]);
      RunKeepsRange(Step(s, events[0]), events[1..]);
    }
  }

  /** Every event keeps the thumb where the offset is drawn (or unmeasured). */
  lemma StepKeepsConsistent(s: State, e: Event)
    requires Consistent(s)
    ensures Consistent(Step(s, e))
  {
    match e
    case ThumbPress(x) =>
      if !s.resetting && s.container.Some? {
        var box := s.container.value;
        DirectedInvolution(s.rtl, PointerOffset(x, box.left, box.width, TimeBound));
      }
    case PointerMove(x) =>
      if !s.resetting && s.dragging && s.container.Some? {
        var box := s.container.value;
        DirectedInvolution(s.rtl, PointerOffset(x, box.left, box.width, TimeBound));
      }
    case ContainerPress(x, onClose) =>
      if !s.resetting && !onClose && s.container.Some? {
        var box := s.container.value;
        DirectedInvolution(s.rtl, PointerOffset(x, box.left, box.width, TimeBound));
      }
    case _ =>
  }

  lemma {:induction false} RunKeepsConsistent(s: State, events: seq<Event>)
    requires Consistent(s)
    ensures Consistent(Run(s, events))
    decreases |events|
  {
    if |events| > 0 {
      StepKeepsConsistent(s, events[0]);
      RunKeepsConsistent(Step(s, events[0]), events[1..]);
    }
  }

  /** From the first render, any sequence of events keeps the offset in range and the thumb on it. */
  lemma Reachable(rtl: bool, events: seq<Event>)
    ensures InRange(Run(Init(rtl), events).offset)
    ensures Consistent(Run(Init(rtl), events))
  {
    RunKeepsRange(Init(rtl), events);
    RunKeepsConsistent(Init(rtl), events);
  }

  /** While a reset runs, presses, drags and keys change nothing. */
  lemma FrozenWhileResetting(s: State, e: Event)
    requires s.resetting
    requires e.ThumbPress? || e.PointerMove? || e.ContainerPress? || e.KeyPress?
    ensures Step(s, e) == s
  {
  }

  /** A second reset request while one runs is ignored. */
  lemma SecondResetIgnored(s: State)
    requires s.resetting
    ensures Step(s, ResetRequest) == s
  {
  }

  /** Resetting from any offset ends at "now" with the tooltip hidden and, after the next layout, the thumb centred. */
  lemma ResetReturnsToCentre(s: State, box: Box)
    requires s.container.Some? && !s.resetting
    ensures var r := Run(s, [ResetRequest, ResetComplete, Layout(box)]);
      && r.offset == 0 && !r.showTooltip && !r.resetting
      && r.sliderX == Some(box.width / 2.0)
  {
    var s1 := Step(s, ResetRequest);
    var s2 := Step(s1, ResetComplete);
    assert Run(s, [ResetRequest, ResetComplete, Layout(box)]) == Run(s1, [ResetComplete, Layout(box)]);
    assert Run(s1, [ResetComplete, Layout(box)]) == Run(s2, [Layout(box)]);
  }

  /** A press on the thumb leaves it within half a minute's width of the pointer, clamped into the container. */
  lemma ThumbLandsUnderPointer(s: State, clientX: real)
    requires !s.resetting && s.container.Some?
    ensures var box := s.container.value;
      var x := ClampReal(0.0, box.width, clientX - box.left);
      var r := Step(s, ThumbPress(clientX));
      && r.sliderX.Some?
      && -(box.width / (4.0 * TimeBound as real)) <= r.sliderX.value - x <= box.width / (4.0 * TimeBound as real)
  {
    var box := s.container.value;
    var x := ClampReal(0.0, box.width, clientX - box.left);
    assert PointerOffset(clientX, box.left, box.width, TimeBound) == OffsetFromSliderX(x, box.width, TimeBound);
    SnapDistance(x, box.width, TimeBound);
  }

  /** Dragging to the right edge of the container peeks a full day ahead (behind, right to left). */
  lemma DragToRightEdge(s: State, clientX: real)
    requires s.dragging && !s.resetting && s.container.Some?
    requires clientX >= s.container.value.left + s.container.value.width
    ensures Step(s, PointerMove(clientX)).offset == if s.rtl then -TimeBound else TimeBound
    ensures Step(s, PointerMove(clientX)).sliderX == Some(s.container.value.width)
  {
  }

  /** The source's refresh keeps the thumb on the offset exactly when no flip is involved. */
  lemma RefreshAsWrittenConsistency(s: State, box: Box)
    ensures Consistent(RefreshAsWritten(s, box)) <==> !s.rtl || s.offset == 0
  {
    if s.rtl && s.offset != 0 && Consistent(RefreshAsWritten(s, box)) {
      OffsetRoundTrip(s.offset, box.width, TimeBound);
      OffsetRoundTrip(-s.offset, box.width, TimeBound);
      assert false;
    }
  }

  /**
    In a right-to-left document, a press three quarters of the way across the
    container, its release and then a window resize leave the thumb at the
    mirror image of the offset the tooltip shows.
   */
  lemma RefreshAsWrittenMirrorsThumb()
    ensures var box := Box(0.0, 960.0);
      var s := Run(Init(true), [Layout(box), ContainerPress(720.0, false), PointerUp]);
      && s.offset == -720
      && s.sliderX == Some(720.0)
      && RefreshAsWritten(s, box).sliderX == Some(240.0)
      && Refresh(s, box).sliderX == Some(720.0)
  {
    var box := Box(0.0, 960.0);
    var s1 := Step(Init(true), Layout(box));
    var s2 := Step(s1, ContainerPress(720.0, false));
    assert Run(Init(true), [Layout(box), ContainerPress(720.0, false), PointerUp])
        == Run(s1, [ContainerPress(720.0, false), PointerUp]);
    assert Run(s1, [ContainerPress(720.0, false), PointerUp]) == Run(s2, [PointerUp]);
    assert OffsetFromSliderX(720.0, 960.0, TimeBound) == 720;
  }

  /**
    The widget with the window listeners wired as the source wires them. The
    effect that registers them is keyed on `dragging` alone, so the resize
    listener's `refreshSlider` sees the offset of the render in which
    `dragging` last changed (the first render's offset before any change).
   */
  datatype Widget = Widget(state: State, seen: int)

  /** The resize listener's refresh: the source's refresh applied to the offset its closure saw. */
  function RefreshSeen(s: State, box: Box, seen: int): (r: State)
    ensures r.container == Some(box) && r.sliderX.Some?
    ensures r.offset == s.offset && r.dragging == s.dragging && r.rtl == s.rtl
    ensures seen == s.offset ==> r == RefreshAsWritten(s, box)
  {
    s.(container := Some(box), sliderX := Some(SliderXFromOffset(seen, box.width, TimeBound)))
  }

  /** One event as the source delivers it, the listeners being registered again after a render that changed `dragging`. */
  function StepAsWritten(w: Widget, e: Event): (r: Widget)
    ensures !e.Layout? ==> r.state == Step(w.state, e)
    ensures r.state.dragging != w.state.dragging ==> r.seen == r.state.offset
    ensures r.state.dragging == w.state.dragging ==> r.seen == w.seen
  {
    var next := if e.Layout? then RefreshSeen(w.state, e.box, w.seen) else Step(w.state, e);
    Widget(next, if next.dragging != w.state.dragging then next.offset else w.seen)
  }

  function RunAsWritten(w: Widget, events: seq<Event>): Widget
    decreases |events|
  {
    if |events| == 0 then w else RunAsWritten(StepAsWritten(w, events[0]), events[1..])
  }

  /** While the listeners saw the current offset, in a left-to-right document the source agrees with the model. */
  lemma StepAsWrittenAgrees(w: Widget, e: Event)
    requires w.seen == w.state.offset && !w.state.rtl
    ensures StepAsWritten(w, e).state == Step(w.state, e)
  {
  }

  /**
    Left to right, 960 px: a press at 720 and its release, then a reset and a
    window resize. The source draws the thumb at 720 although the offset is
    back at zero; the model draws it at the centre.
   */
  lemma StaleResizeAfterReset()
    ensures var box := Box(0.0, 960.0);
      var events := [Layout(box), ContainerPress(720.0, false), PointerUp, ResetRequest, ResetComplete, Layout(box)];
      var w := RunAsWritten(Widget(Init(false), 0), events);
      && w.state.offset == 0
      && w.state.sliderX == Some(720.0)
      && Run(Init(false), events).offset == 0
      && Run(Init(false), events).sliderX == Some(480.0)
  {
    var box := Box(0.0, 960.0);
    var events := [Layout(box), ContainerPress(720.0, false), PointerUp, ResetRequest, ResetComplete, Layout(box)];
    assert OffsetFromSliderX(720.0, 960.0, TimeBound) == 720;
    var w0 := Widget(Init(false), 0);
    var w1 := StepAsWritten(w0, events[0]);
    var w2 := StepAsWritten(w1, events[1]);
    var w3 := StepAsWritten(w2, events[2]);
    var w4 := StepAsWritten(w3, events[3]);
    var w5 := StepAsWritten(w4, events[4]);
    assert w2.seen == 720 && w3.seen == 720 && w5.seen == 720 && w5.state.offset == 0;
    assert RunAsWritten(w0, events) == RunAsWritten(w1, events[1..]);
    assert RunAsWritten(w1, events[1..]) == RunAsWritten(w2, events[2..]);
    assert RunAsWritten(w2, events[2..]) == RunAsWritten(w3, events[3..]);
    assert RunAsWritten(w3, events[3..]) == RunAsWritten(w4, events[4..]);
    assert RunAsWritten(w4, events[4..]) == RunAsWritten(w5, events[5..]);
    assert RunAsWritten(w5, events[5..]) == StepAsWritten(w5, events[5]);
    var s0 := Init(false);
    var s1 := Step(s0, events[0]);
    var s2 := Step(s1, events[1]);
    var s3 := Step(s2, events[2]);
    var s4 := Step(s3, events[3]);
    var s5 := Step(s4, events[4]);
    assert Run(s0, events) == Run(s1, events[1..]);
    assert Run(s1, events[1..]) == Run(s2, events[2..]);
    assert Run(s2, events[2..]) == Run(s3, events[3..]);
    assert Run(s3, events[3..]) == Run(s4, events[4..]);
    assert Run(s4, events[4..]) == Run(s5, events[5..]);
    assert Run(s5, events[5..]) == Step(s5, events[5]);
  }

  /**
    Left to right, 960 px: one arrow key press, then a window resize. The
    source draws the thumb at the centre although the tooltip reads +0:30;
    the model draws it ten pixels right of the centre.
   */
  lemma StaleResizeAfterKey()
    ensures var box := Box(0.0, 960.0);
      var events := [Layout(box), KeyPress("ArrowRight"), Layout(box)];
      var w := RunAsWritten(Widget(Init(false), 0), events);
      && w.state.offset == 30
      && w.state.sliderX == Some(480.0)
      && Run(Init(false), events).sliderX == Some(490.0)
  {
    var box := Box(0.0, 960.0);
    var events := [Layout(box), KeyPress("ArrowRight"), Layout(box)];
    var w0 := Widget(Init(false), 0);
    var w1 := StepAsWritten(w0, events[0]);
    var w2 := StepAsWritten(w1, events[1]);
    assert w2.seen == 0 && w2.state.offset == 30;
    assert RunAsWritten(w0, events) == RunAsWritten(w1, events[1..]);
    assert RunAsWritten(w1, events[1..]) == RunAsWritten(w2, events[2..]);
    assert RunAsWritten(w2, events[2..]) == StepAsWritten(w2, events[2]);
    var s0 := Init(false);
    var s1 := Step(s0, events[0]);
    var s2 := Step(s1, events[1]);
    assert Run(s0, events) == Run(s1, events[1..]);
    assert Run(s1, events[1..]) == Run(s2, events[2..]);
    assert Run(s2, events[2..]) == Step(s2, events[2]);
  }
}

=== FILE: words.dfy ===
/** Space-separated text: JavaScript's `parts.join(" ")` and its inverse, `split(" ")`. */
module Words {

  /** A word holds no space. */
  predicate IsWord(w: string) {
    ' ' !in w
  }

  /** `ws.join(" ")`. */
  function Join(ws: seq<string>): string
    decreases |ws|
  {
    if |ws| == 0 then ""
    else if |ws| == 1 then ws[0]
    else ws[0] + " " + Join(ws[1..])
  }

  /** Position of the first space of `s`. */
  function SpaceIndex(s: string): (i: nat)
    requires ' ' in s
    ensures i < |s| && s[i] == ' '
    ensures ' ' !in s[..i]
    decreases |s|
  {
    if s[0] == ' ' then 0
    else
      var i := 1 + SpaceIndex(s[1..]);
      assert s[..i] == [s[0]] + s[1..][..i - 1];
      i
  }

  /** `s.split(" ")`: the pieces between spaces, in order. */
  function Split(s: string): (ws: seq<string>)
    ensures |ws| >= 1
    ensures forall k :: 0 <= k < |ws| ==> IsWord(ws[k])
    decreases |s|
  {
    if ' ' in s then
      var i := SpaceIndex(s);
      [s[..i]] + Split(s[i + 1..])
    else [s]
  }

  /** The first space of `a + " " + b` is the one after `a` when `a` is a word. */
  lemma {:induction false} SpaceIndexAfterWord(a: string, b: string)
    requires IsWord(a)
    ensures ' ' in a + " " + b
    ensures SpaceIndex(a + " " + b) == |a|
    decreases |a|
  {
    var s := a + " " + b;
    assert s[|a|] == ' ';
    if |a| > 0 {
      assert a[0] in a;
      assert s[1..] == a[1..] + " " + b;
      assert forall c :: c in a[1..] ==> c in a;
      SpaceIndexAfterWord(a[1..], b);
    }
  }

  /** Splitting at the space after a leading word peels that word off. */
  lemma SplitAfterWord(a: string, b: string)
    requires IsWord(a)
    ensures Split(a + " " + b) == [a] + Split(b)
  {
    var s := a + " " + b;
    SpaceIndexAfterWord(a, b);
    assert s[..|a|] == a;
    assert s[|a| + 1..] == b;
  }

  /** Splitting a joined list of words gives the words back. */
  lemma {:induction false} SplitJoin(ws: seq<string>)
    requires |ws| >= 1
    requires forall k :: 0 <= k < |ws| ==> IsWord(ws[k])
    ensures Split(Join(ws)) == ws
    decreases |ws|
  {
    if |ws| > 1 {
      var tail := ws[1..];
      TailWords(ws);
      assert Join(ws) == ws[0] + " " + Join(tail);
      SplitAfterWord(ws[0], Join(tail));
      SplitJoin(tail);
      assert ws == [ws[0]] + tail;
    }
  }

  /** Dropping the first of a list of words leaves words. */
  lemma TailWords(ws: seq<string>)
    requires |ws| >= 1
    requires forall k :: 0 <= k < |ws| ==> IsWord(ws[k])
    ensures forall k :: 0 <= k < |ws| - 1 ==> IsWord(ws[1..][k])
  {
    forall k | 0 <= k < |ws| - 1
      ensures IsWord(ws[1..][k])
    {
      assert ws[1..][k] == ws[k + 1];
    }
  }

  /** Appending one more word to a list of words: still words, one more space in the join. */
  lemma AppendWord(ws: seq<string>, w: string)
    requires |ws| >= 1 && IsWord(w)
    requires forall k :: 0 <= k < |ws| ==> IsWord(ws[k])
    ensures Join(ws + [w]) == Join(ws) + " " + w
    ensures forall k :: 0 <= k < |ws + [w]| ==> IsWord((ws + [w])[k])
  {
    JoinAppend(ws, [w]);
  }

  /** Joining two non-empty lists puts one space between their joins. */
  lemma {:induction false} JoinAppend(a: seq<string>, b: seq<string>)
    requires |a| >= 1 && |b| >= 1
    ensures Join(a + b) == Join(a) + " " + Join(b)
    decreases |a|
  {
    if |a| > 1 {
      assert (a + b)[1..] == a[1..] + b;
      JoinAppend(a[1..], b);
    } else {
      assert (a + b)[1..] == b;
    }
  }
}
